=== FILE: README.md ===
# Weather tool server: the request pipeline in Dafny

`weather-server.js` is a small tool server with three tools: `query_weather`,
`query_forecast` and `query_hourly_forecast`. Each takes a city name. Each resolves
the name against a fixed table of four cities and fetches the Meizu weather
`listWeather` payload for that city. It then checks the envelope and renders one of
three reports, and every thrown error becomes an error-flagged reply.

This project models that pipeline as pure functions over immutable datatypes and
proves properties of it. The fetch, the clock and `Math.random` are parameters of
the model. Nothing here runs the server.

Modules, in dependency order:

- `Text` (`text.dfy`): decimal rendering (`String(n)`), `padStart(2, '0')`, `includes`, `join`, line assembly and `trim`, with the facts the reports need about them.
- `Dates` (`dates.dfy`): calendar days and their chronological order. Also the clock reading with a 0-based month, and the `YYYY-MM-DD` key. The key is proved to identify the day.
- `Payload` (`payload.dfy`): the decoded envelope, the city block and its sections. Also the outcome of one fetch.
- `Cities` (`cities.dfy`): `CITY_MAP`, the exact-match resolver and the unsupported-city advisory.
- `Icons` (`icons.dfy`): the first-match-wins weather icon rules and the life-index emoji switch.
- `Current` (`current.dfy`): today selection and the current-conditions report.
- `Daily` (`daily.dfy`): the stable date sort, the from-today filter, the day labels and the random tip.
- `Hourly` (`hourly.dfy`): the three-hour blocks, precipitation lines and the no-data notice.
- `Pipeline` (`pipeline.dfy`): envelope validation, fetch outcomes and the one parameterised handler for all three tools. The source writes that handler out three times.

Modelling choices:

- Reports are sequences of lines. The reply text is `Trim(Lines(lines))`: each line is followed by `"\n"` and the result is trimmed as `String.prototype.trim` does.
- A forecast's `date` is a `CalendarDay`. The provider's date string is taken to be the zero-padded ISO form of that day, which is `DateKey(date)`. Matching `w.date === dateStr` is therefore matching keys, and `DateKeyInjective` turns that into matching days.
- The order of `new Date(a.date) - new Date(b.date)` is chronological order on days (`NotAfter`). The filter against local midnight keeps days not before today.
- The icon rules test 晴, then 雨, 雪, 雾 and 雷, with ☁️ as the default. So a thunder-shower text holding both 雷 and 雨, such as 雷阵雨, gets the rain icon 🌧️, because 雨 is tested before 雷 (weather-server.js:190-193).
- The label "今天" goes to the first retained entry whatever its date. With no entry for today, the first future day carries it (`Daily.TodayBlockIsEarliestRetained`).
- In the current-conditions report, a missing `weathers` list, a missing `realtime` snapshot or an empty `weathers` list makes the handler throw a `TypeError` when it reads a property of `undefined`. The model gives the three faults in the order the code reaches them, with V8's message text.

## Model

| member | source | states |
|---|---|---|
| Cities.Resolve | weather-server.js:14-33 | the lookup misses exactly for names outside the table; a hit returns the identifier the table pairs with the name |
| Cities.ResolveFindsEveryEntry | weather-server.js:14-20 | each of the four table names resolves to exactly its own identifier |
| Cities.Advisory | weather-server.js:33-39 | the unsupported-city advisory contains the requested name and every supported city name, and ends with the table's names in order joined by 、 (北京、上海、武汉、郑州) |
| Cities.InheritedNameSkipsAdvisory | weather-server.js:30-33 | as written, "toString" is not a supported city yet the `!cityId` test does not give the advisory |
| Cities.ResolveMissesExactlyUnsupported | weather-server.js:30-33 | the corrected resolver misses exactly the names no table entry has, inherited object member names included |
| Icons.FirstMatch | weather-server.js:188-193 | ordered substring rules: the result is the icon of the first rule whose pattern occurs, or the default when none occurs |
| Icons.IconForIsFirstMatch | weather-server.js:188-193 | the written if/else chain equals first-match-wins over the rules 晴, 雨, 雪, 雾, 雷 with the cloudy default |
| Icons.IconForCharacterised | weather-server.js:280-285 | each icon is chosen exactly when its pattern occurs and no earlier pattern does |
| Icons.ThunderShowerIsRainy | weather-server.js:188-193 | text with both 雷 and 雨 but no 晴 gets the rain icon 🌧️, not thunder |
| Icons.ThunderShowerText | weather-server.js:190-193 | the text 雷阵雨 itself gets the rain icon |
| Icons.IndexEmoji | weather-server.js:95-103 | the emoji is one of seven fixed values, and it is ℹ️ exactly for codes other than ct, pp, gm, xc, yd and uv |
| Icons.IndexEmojiDistinguishesKnownCodes | weather-server.js:96-102 | the six known codes get six different emojis |
| Dates.TodayKeyReadsBack | weather-server.js:65-66 | today's key reads back as the full year, the 0-based month index plus one, and the day of the month |
| Dates.DateKeyPadded | weather-server.js:66 | the key is the year's digits, a dash, the month, a dash and the day, where a month or day below 10 takes two places with a leading '0' and a wider one keeps all its digits |
| Dates.KeyRoundTrip | weather-server.js:66 | every key splits at its two dashes into digit runs that read back as the day's year, month and day |
| Dates.MonthDayLabel | weather-server.js:184-185 | the label is the month's digits, 月, the day's digits and 日, with no padding (its length is the two unpadded renderings plus two), and each digit run reads back as its number |
| Dates.DateKeyInjective | weather-server.js:66-67 | two days have equal keys if and only if they are the same day |
| Current.FindFirst | weather-server.js:64-67 | `find` returns the position of the first element satisfying the test, and nothing when no element does |
| Current.SelectToday | weather-server.js:64-68 | today's entry is the first forecast dated today; with none it is `weathers[0]` whatever its date; only an empty list yields nothing |
| Current.ReportLines | weather-server.js:74-106 | the report has eleven fixed lines headed by city and province, with the chosen day's temperatures on line 9; the air section appears only with `pm25`, and the index section only when indexes exist, one line per index in order |
| Current.CurrentLines | weather-server.js:62-82 | a missing `weathers`, a missing `realtime` or an empty `weathers` list each fail with the matching `TypeError` message; otherwise the report uses the entry `SelectToday` chose |
| Daily.SortByDateProperties | weather-server.js:164-168 | the sort output is ordered by date and is a permutation of its input; for every day, the entries of that day keep their input order (stability) |
| Daily.KeepFromMultiset | weather-server.js:171-178 | the filter keeps every occurrence of each entry dated today or later and no entry dated earlier |
| Daily.KeepFromSorted | weather-server.js:175-178 | filtering a date-ordered list leaves it date-ordered |
| Daily.Retained | weather-server.js:161-178 | the shown entries are sorted by date; none is earlier than today; they are the input's entries from today on with multiplicities; equal dates keep their input order |
| Daily.DayBlocks | weather-server.js:183-195 | one block per retained entry in order, with its icon; exactly the first block is headed 今天, and every later block is headed with its own entry's month/day label and `week` |
| Daily.TodayBlockIsEarliestRetained | weather-server.js:183-195 | when there are blocks, the 今天 block shows the earliest retained day, which is today or later, and every later block carries a month/day label |
| Daily.TodayBlockIsTodayWhenListed | weather-server.js:164-195 | when the list has an entry dated today, the 今天 block shows today |
| Daily.NoBlocksExactlyWhenAllPast | weather-server.js:171-185 | the report has no day blocks exactly when every entry is dated before today |
| Daily.TipIndex | weather-server.js:203-205 | for a draw in [0, 1) the tip position lies in [0, number of indexes) |
| Daily.DailyLines | weather-server.js:181-206 | the report is the heading, then five lines per retained entry, then one tip line exactly when indexes exist, taken from the drawn index |
| Hourly.HourBlocks | weather-server.js:261-297 | one block per interval in input order; a block has a rainfall amount exactly when precipitation is present, non-empty and not "0", and then it is that amount |
| Hourly.BlockAtOffset | weather-server.js:272-297 | the joined block lines are exactly as long as all blocks together, and each block's four or five lines appear in full at its offset, the total length of the blocks before it |
| Hourly.BlockLines | weather-server.js:287-296 | a block has four lines, or five when it carries a precipitation line, which then contains the rainfall amount; it ends with a blank line |
| Hourly.HourlyLines | weather-server.js:261-270 | there is no report exactly when the interval list is absent or empty; otherwise the heading is followed by the blocks |
| Pipeline.FetchBlock | weather-server.js:46-56 | only a decoded envelope with code "200" and a first block succeeds, with that block; an HTTP failure's message names the status code and status text; a rejected request and an unparsable body pass their error's message on; a rejected envelope carries the provider message |
| Pipeline.ValidateEnvelope | weather-server.js:54-59 | the envelope is accepted if and only if code is "200" and a first block exists, and then that block is used; a rejection carries the provider message |
| Pipeline.Produce | weather-server.js:62-297 | the report step of the three tools: the current tool yields `Current.CurrentLines`' lines, or throws exactly its `TypeError` message; the forecast tool yields `Daily.DailyLines`; the hourly tool yields `Hourly.HourlyLines`, or the no-data notice naming the requested city exactly when there are no intervals |
| Pipeline.ReplyFor | weather-server.js:108-116 | only a thrown error is flagged, and its text is the tool's prefix followed by the error message; a notice is returned as is; a report's text is its lines joined and trimmed, so it neither starts nor ends with white space |
| Pipeline.Handle | weather-server.js:28-117 | the reply is flagged as an error exactly when the call failed, and then starts with the tool's prefix; an unsupported city gets the unflagged advisory (which names every supported city, by `Cities.Advisory`); a failed fetch or envelope gives the prefix followed by that error's message; a validated block gives `ReplyFor` of what `Produce` made of it, so a finished report starts and ends with a non-space |
| Pipeline.HttpStatusIsReported | weather-server.js:48-50 | a non-2xx response gives an error reply containing the decimal status code |
| Pipeline.EnvelopeMessageIsReported | weather-server.js:55-56 | a rejected envelope gives an error reply containing the provider's message, or "未知错误" when it sent none |
| Text.Trim | weather-server.js:109 | the trimmed text is a slice of the input that cuts only white space and neither starts nor ends with white space |
| Text.JoinContainsParts | weather-server.js:37 | every part of a joined list occurs in the joined text |
| Text.DigitsRoundTrip | weather-server.js:66 | reading back the decimal rendering of a number gives the number |

## Findings

| source | as written | input that shows it | evidently intended | confidence | as-written member | corrected member |
|---|---|---|---|---|---|---|
| weather-server.js:30-33 | `CITY_MAP[city]` is a property read on a plain object, so it also finds members inherited from `Object.prototype`, and `!cityId` is false for them | city `"toString"` (also `"constructor"`, `"__proto__"`, `"valueOf"`, ...) | an unsupported-city advisory for every name that is not one of the four table keys | high; not executed | Cities.InheritedNameSkipsAdvisory | Cities.ResolveMissesExactlyUnsupported |

`Cities.PropertyLookup` models the read as written. `Cities.Resolve` models the corrected own-key lookup, and the pipeline uses it. As written, such a name skips the advisory: the handler builds a provider URL from the inherited member's string form (a function's source text, or `[object Object]` for `"__proto__"`) and fetches it.

## Left out

- The tool server, `StdioServerTransport`, the zod input schemas and `main` (weather-server.js:2-11, 313-329) are framework and process wiring.
- `fetch`, the HTTP `ok` check and `response.json()` are I/O. Their outcome is the `Fetched` parameter: a request rejected before any response (a DNS or connection failure) with the error's message, an HTTP failure with status and reason, a body that is not JSON with the parser's message, or a decoded envelope. The request URL is not modelled.
- `console.error` logging is a diagnostic side effect and is not modelled.
- JavaScript `Date` parsing and time zones are not modelled. `new Date("YYYY-MM-DD")` is UTC midnight. West of UTC it falls before local midnight, so today's entry would be dropped by the filter and month/day labels would show the previous day. The model compares calendar days, which matches the code's behaviour at UTC and east of it. Invalid or non-ISO date strings are not modelled.
- `getHours()` of the interval start and end times is taken as given: intervals carry their local hours.
- The clock is read once per call. The code reads it again for every element that `find` tests, which only matters across midnight.
- `Math.random()` is the `draw` parameter in [0, 1). Its uniformity is not modelled.
- A JSON `null` for `weathers` or `realtime` is modelled as a missing section. V8 then says "Cannot read properties of null" where the model gives the message for `undefined`.
- Payload scalars are modelled as strings that are always present. JavaScript's rendering of a missing scalar as `undefined`, and the `TypeError` of a forecast entry without `weather`, are not modelled. A missing `value` list is modelled as an empty one, since both are rejected with the same message.

=== FILE: cities.dfy ===
/**
 The city resolver: the fixed table of supported cities and their provider
 identifiers, and the advisory listing them.
 */
module Cities {
  import opened Text
  import opened Payload

  /** `CITY_MAP`, in insertion order (the order `Object.keys` lists it). */
  const CityTable: seq<(string, string)> := [
    ("北京", "101010100"),
    ("上海", "101020100"),
    ("武汉", "101200101"),
    ("郑州", "101180101")
  ]

  /** The supported city names, in table order. */
  function CityNames(): (r: seq<string>)
    ensures |r| == |CityTable|
    ensures forall i :: 0 <= i < |r| ==> r[i] == CityTable[i].0
  {
    seq(|CityTable|, i requires 0 <= i < |CityTable| => CityTable[i].0)
  }

  lemma CityNamesDistinct()
    ensures forall i, j :: 0 <= i < j < |CityTable| ==> CityTable[i].0 != CityTable[j].0
  {
  }

  function LookupIn(table: seq<(string, string)>, name: string): (r: Option<string>)
    ensures r.None? <==> forall i :: 0 <= i < |table| ==> table[i].0 != name
    ensures r.Some? ==> exists i :: 0 <= i < |table| && table[i] == (name, r.value)
  {
    if table == [] then None
    else if table[0].0 == name then Some(table[0].1)
    else LookupIn(table[1..], name)
  }

  /** Exact-match lookup of a city name among the table's own entries. */
  function Resolve(name: string): (r: Option<string>)
    ensures r.None? <==> name !in CityNames()
    ensures r.Some? ==> (name, r.value) in CityTable
  {
    LookupIn(CityTable, name)
  }

  /** The identifier found is the one the table pairs with the name, for every entry. */
  lemma ResolveFindsEveryEntry(i: nat)
    requires i < |CityTable|
    ensures Resolve(CityTable[i].0) == Some(CityTable[i].1)
  {
    CityNamesDistinct();
  }

  /** `Object.keys(CITY_MAP).join("、")`. */
  function SupportedList(): string {
    Join(CityNames(), "、")
  }

  /** The advisory for an unsupported city; `subject` names what was asked for
      ("天气信息", "天气预报" or "精细天气预报"). */
  function Advisory(city: string, subject: string): (r: string)
    ensures Contains(r, city)
    ensures forall i :: 0 <= i < |CityTable| ==> Contains(r, CityTable[i].0)
    ensures |r| >= |"北京、上海、武汉、郑州"| && r[|r| - |"北京、上海、武汉、郑州"|..] == "北京、上海、武汉、郑州"
  {
    var head := "暂不支持查询\"" + city + "\"的" + subject + "。目前支持的城市有：";
    var r := head + SupportedList();
    assert SupportedList() == "北京、上海、武汉、郑州";
    assert r[|head|..] == SupportedList();
    ContainsMiddle("暂不支持查询\"", city, "\"的" + subject + "。目前支持的城市有：");
    assert "暂不支持查询\"" + city + ("\"的" + subject + "。目前支持的城市有：") == head;
    ContainsInPrefix(head, SupportedList(), city);
    forall i | 0 <= i < |CityTable|
      ensures Contains(r, CityTable[i].0)
    {
      JoinContainsParts(CityNames(), "、", i);
      ContainsInSuffix(head, SupportedList(), CityTable[i].0);
    }
    r
  }

  // ---------------------------------------------------------------------------
  // The lookup as the handlers write it: `CITY_MAP[city]` is an ordinary property
  // read on a plain object, so it also sees the members every object inherits.

  /** The property names a plain object inherits from `Object.prototype`. */
  const InheritedNames: set<string> := {
    "constructor", "hasOwnProperty", "isPrototypeOf", "propertyIsEnumerable",
    "toLocaleString", "toString", "valueOf", "__proto__",
    "__defineGetter__", "__defineSetter__", "__lookupGetter__", "__lookupSetter__"
  }

  /** What `CITY_MAP[name]` evaluates to: an own identifier string, an inherited member
      (a function, or `Object.prototype` for `__proto__`; both truthy), or `undefined`. */
  datatype PropertyValue = OwnValue(id: string) | InheritedMember(name: string)

  function PropertyLookup(name: string): Option<PropertyValue> {
    match LookupIn(CityTable, name)
    case Some(id) => Some(OwnValue(id))
    case None => if name in InheritedNames then Some(InheritedMember(name)) else None
  }

  /** The handlers' `if (!cityId)` test: the advisory is given only when the read is `undefined`. */
  predicate AdvisoryGivenAsWritten(name: string) {
    PropertyLookup(name).None?
  }

  /** As written, a name that is not a supported city can still skip the advisory:
      "toString" reads an inherited member, so the handler goes on to fetch with it. */
  lemma InheritedNameSkipsAdvisory()
    ensures "toString" !in CityNames()
    ensures !AdvisoryGivenAsWritten("toString")
  {
  }

  /** The corrected resolver gives the advisory for exactly the names outside the table,
      inherited names included. */
  lemma ResolveMissesExactlyUnsupported(name: string)
    ensures Resolve(name).None? <==> forall i :: 0 <= i < |CityTable| ==> CityTable[i].0 != name
    ensures name in InheritedNames ==> Resolve(name).None?
  {
  }
}

=== FILE: current.dfy ===
/**
 The current-conditions report (`query_weather`): today's forecast entry is
 chosen by its date key, the realtime snapshot and that entry fill the fixed
 sections, and the air-quality and life-index sections follow when present.
 */
module Current {
  import opened Text
  import opened Dates
  import opened Payload
  import opened Icons

  /** `xs.find(p)`, as the position of the first element satisfying `p`. */
  function FindFirst<T>(xs: seq<T>, p: T -> bool): (r: Option<nat>)
    ensures r.Some? ==> r.value < |xs| && p(xs[r.value])
    ensures r.Some? ==> forall j :: 0 <= j < r.value ==> !p(xs[j])
    ensures r.None? ==> forall j :: 0 <= j < |xs| ==> !p(xs[j])
  {
    if xs == [] then None
    else if p(xs[0]) then Some(0)
    else
      assert forall j :: 1 <= j < |xs| ==> xs[j] == xs[1..][j - 1];
      match FindFirst(xs[1..], p)
      case None => None
      case Some(i) => Some(i + 1)
  }

  /** Today's entry: the first forecast dated today, else `weathers[0]` whatever its date;
      `None` (JavaScript's `undefined`) only when the list is empty. */
  function SelectToday(ws: seq<DayForecast>, now: Clock): (r: Option<DayForecast>)
    ensures r.None? <==> ws == []
    ensures r.Some? ==>
              || (exists i :: 0 <= i < |ws| && ws[i].date == TodayOf(now) && r.value == ws[i]
                                && forall j :: 0 <= j < i ==> ws[j].date != TodayOf(now))
              || ((forall j :: 0 <= j < |ws| ==> ws[j].date != TodayOf(now)) && r.value == ws[0])
  {
    var today := TodayOf(now);
    var key := TodayKey(now);
    var found := FindFirst(ws, (w: DayForecast) => DateKey(w.date) == key);
    forall j | 0 <= j < |ws|
      ensures DateKey(ws[j].date) == key <==> ws[j].date == today
    {
      DateKeyInjective(ws[j].date, today);
    }
    match found
    case Some(i) => Some(ws[i])
    case None => if ws == [] then None else Some(ws[0])
  }

  /** The V8 message of the `TypeError` thrown when a property of `undefined` is read. */
  function ReadOfUndefined(property: string): string {
    "Cannot read properties of undefined (reading '" + property + "')"
  }

  function AirLines(a: AirQuality): seq<string> {
    [ "🌫️ 空气质量: " + a.quality + " (AQI: " + a.aqi + ")",
      "💨 PM2.5: " + a.pm25 + ", PM10: " + a.pm10,
      "" ]
  }

  function IndexLine(ix: LifeIndex): string {
    IndexEmoji(ix.abbreviation) + " " + ix.name + "(" + ix.level + "): " + ix.content
  }

  function IndexSection(indexes: seq<LifeIndex>): seq<string> {
    if indexes == [] then []
    else ["🔍 生活指数参考:"] + seq(|indexes|, k requires 0 <= k < |indexes| => IndexLine(indexes[k]))
  }

  function HeaderLine(b: CityBlock): string {
    "📍 " + b.city + "（" + b.provinceName + "）实时天气"
  }

  function TodayTempLine(t: DayForecast): string {
    "📅 今日温度: " + t.tempDay + "°C / " + t.tempNight + "°C"
  }

  function FixedLines(b: CityBlock, rt: Realtime, t: DayForecast): seq<string> {
    [ HeaderLine(b),
      "🕒 " + rt.time,
      "",
      "🌡️ 当前温度: " + rt.temp + "°C (体感温度: " + rt.sendibleTemp + "°C)",
      "☁️ 天气状况: " + rt.weather,
      "💧 湿度: " + rt.humidity + "%",
      "🌬️ 风向风力: " + rt.windDirection + " " + rt.windScale,
      "",
      TodayTempLine(t),
      "🌞 日出/日落: " + t.sunRise + " / " + t.sunDown,
      "" ]
  }

  function AirSection(pm25: Option<AirQuality>): seq<string> {
    match pm25
    case Some(a) => AirLines(a)
    case None => []
  }

  /** The report's layout: the eleven fixed lines, then the air-quality section when the
      payload has one, then the life-index section, one line per index in order. */
  function ReportLines(b: CityBlock, rt: Realtime, t: DayForecast): (r: seq<string>)
    ensures var idx := OrEmpty(b.indexes);
            && |r| == 11 + (if b.pm25.Some? then 3 else 0) + (if idx == [] then 0 else 1 + |idx|)
            && r[0] == HeaderLine(b)
            && r[8] == TodayTempLine(t)
            && (b.pm25.Some? ==> r[11..14] == AirLines(b.pm25.value))
            && (forall k :: 0 <= k < |idx| ==> r[|r| - |idx| + k] == IndexLine(idx[k]))
  {
    var fixed, air, ix := FixedLines(b, rt, t), AirSection(b.pm25), IndexSection(OrEmpty(b.indexes));
    var r := fixed + air + ix;
    assert r[|fixed| + |air|..] == ix;
    r
  }

  /** The lines of the current-conditions report, before trimming; a fault carries the
      message of the `TypeError` the handler would throw on a missing section. */
  function CurrentLines(b: CityBlock, now: Clock): (r: Result<seq<string>>)
    ensures b.weathers.None? ==> r == Fault(ReadOfUndefined("find"))
    ensures b.weathers.Some? && b.realtime.None? ==> r == Fault(ReadOfUndefined("time"))
    ensures b.weathers == Some([]) && b.realtime.Some? ==> r == Fault(ReadOfUndefined("temp_day_c"))
    ensures r.Ok? <==> b.weathers.Some? && b.weathers.value != [] && b.realtime.Some?
    ensures r.Ok? ==> r.value == ReportLines(b, b.realtime.value, SelectToday(b.weathers.value, now).value)
  {
    match b.weathers
    case None => Fault(ReadOfUndefined("find"))
    case Some(ws) =>
      var today := SelectToday(ws, now);
      match b.realtime
      case None => Fault(ReadOfUndefined("time"))
      case Some(rt) =>
        match today
        case None => Fault(ReadOfUndefined("temp_day_c"))
        case Some(t) => Ok(ReportLines(b, rt, t))
  }
}

=== FILE: daily.dfy ===
/**
 The daily-forecast report (`query_forecast`): the forecast list is sorted
 stably by date, entries before today are dropped, the first kept entry is
 labelled "今天", and one life-index tip drawn at random closes the report.
 */
module Daily {
  import opened Text
  import opened Dates
  import opened Payload
  import opened Icons

  predicate SortedByDate(s: seq<DayForecast>) {
    forall i, j :: 0 <= i < j < |s| ==> NotAfter(s[i].date, s[j].date)
  }

  /** The entries of `s` dated `d`, in their order in `s`. Two lists whose `OnDay`
      agree for every day hold the same entries, with equal dates in the same order. */
  function OnDay(s: seq<DayForecast>, d: CalendarDay): seq<DayForecast> {
    if s == [] then [] else (if s[0].date == d then [s[0]] else []) + OnDay(s[1..], d)
  }

  /** Places `x` before the first entry not earlier than it, so that it precedes
      every entry of `s` with the same date. */
  function Insert(x: DayForecast, s: seq<DayForecast>): seq<DayForecast> {
    if s == [] || NotAfter(x.date, s[0].date) then [x] + s
    else [s[0]] + Insert(x, s[1..])
  }

  /** `forecasts.sort((a, b) => new Date(a.date) - new Date(b.date))`: a stable sort by date. */
  function SortByDate(s: seq<DayForecast>): seq<DayForecast> {
    if s == [] then [] else Insert(s[0], SortByDate(s[1..]))
  }

  /** `forecasts.filter(f => new Date(f.date) >= today)`, `today` being local midnight. */
  function KeepFrom(s: seq<DayForecast>, today: CalendarDay): seq<DayForecast> {
    if s == [] then []
    else (if NotAfter(today, s[0].date) then [s[0]] else []) + KeepFrom(s[1..], today)
  }

  lemma {:induction false} InsertMultiset(x: DayForecast, s: seq<DayForecast>)
    ensures multiset(Insert(x, s)) == multiset(s) + multiset{x}
    decreases |s|
  {
    if s != [] && !NotAfter(x.date, s[0].date) {
      InsertMultiset(x, s[1..]);
      assert s == [s[0]] + s[1..];
    }
  }

  lemma {:induction false} InsertSorted(x: DayForecast, s: seq<DayForecast>)
    requires SortedByDate(s)
    ensures SortedByDate(Insert(x, s))
    decreases |s|
  {
    if s != [] && !NotAfter(x.date, s[0].date) {
      var t := Insert(x, s[1..]);
      InsertSorted(x, s[1..]);
      InsertMultiset(x, s[1..]);
      forall k | 0 <= k < |t|
        ensures NotAfter(s[0].date, t[k].date)
      {
        assert t[k] in multiset(t);
        if t[k] != x {
          assert t[k] in multiset(s[1..]);
          var m :| 0 <= m < |s[1..]| && s[1..][m] == t[k];
          assert s[m + 1] == t[k];
        }
      }
      forall i, j | 0 <= i < j < |[s[0]] + t|
        ensures NotAfter(([s[0]] + t)[i].date, ([s[0]] + t)[j].date)
      {
        if i > 0 {
          assert ([s[0]] + t)[i] == t[i - 1] && ([s[0]] + t)[j] == t[j - 1];
        } else {
          assert ([s[0]] + t)[j] == t[j - 1];
        }
      }
    }
  }

  lemma {:induction false} OnDayAppend(a: seq<DayForecast>, b: seq<DayForecast>, d: CalendarDay)
    ensures OnDay(a + b, d) == OnDay(a, d) + OnDay(b, d)
    decreases |a|
  {
    if a == [] {
      assert a + b == b;
    } else {
      OnDayAppend(a[1..], b, d);
      assert (a + b)[0] == a[0];
      assert (a + b)[1..] == a[1..] + b;
    }
  }

  /** Inserting `x` adds it in front of the entries of its own day and leaves other days alone. */
  lemma {:induction false} InsertOnDay(x: DayForecast, s: seq<DayForecast>, d: CalendarDay)
    ensures OnDay(Insert(x, s), d) == (if x.date == d then [x] else []) + OnDay(s, d)
    decreases |s|
  {
    if s != [] && !NotAfter(x.date, s[0].date) {
      InsertOnDay(x, s[1..], d);
      assert s[0].date != x.date;
      assert ([s[0]] + Insert(x, s[1..]))[1..] == Insert(x, s[1..]);
    } else {
      assert ([x] + s)[1..] == s;
    }
  }

  lemma {:induction false} SortByDateProperties(s: seq<DayForecast>)
    ensures SortedByDate(SortByDate(s))
    ensures multiset(SortByDate(s)) == multiset(s)
    ensures forall d :: OnDay(SortByDate(s), d) == OnDay(s, d)
    decreases |s|
  {
    if s != [] {
      SortByDateProperties(s[1..]);
      InsertSorted(s[0], SortByDate(s[1..]));
      InsertMultiset(s[0], SortByDate(s[1..]));
      assert s == [s[0]] + s[1..];
      forall d
        ensures OnDay(SortByDate(s), d) == OnDay(s, d)
      {
        InsertOnDay(s[0], SortByDate(s[1..]), d);
      }
    }
  }

  lemma {:induction false} KeepFromMultiset(s: seq<DayForecast>, today: CalendarDay)
    ensures forall x :: multiset(KeepFrom(s, today))[x] ==
                          if NotAfter(today, x.date) then multiset(s)[x] else 0
    decreases |s|
  {
    if s != [] {
      KeepFromMultiset(s[1..], today);
      var head := if NotAfter(today, s[0].date) then [s[0]] else [];
      assert KeepFrom(s, today) == head + KeepFrom(s[1..], today);
      assert multiset(KeepFrom(s, today)) == multiset(head) + multiset(KeepFrom(s[1..], today));
      assert s == [s[0]] + s[1..];
      assert multiset(s) == multiset{s[0]} + multiset(s[1..]);
    }
  }

  lemma {:induction false} KeepFromOnDay(s: seq<DayForecast>, today: CalendarDay, d: CalendarDay)
    ensures OnDay(KeepFrom(s, today), d) == if NotAfter(today, d) then OnDay(s, d) else []
    decreases |s|
  {
    if s != [] {
      KeepFromOnDay(s[1..], today, d);
      var head := if NotAfter(today, s[0].date) then [s[0]] else [];
      OnDayAppend(head, KeepFrom(s[1..], today), d);
    }
  }

  lemma {:induction false} KeepFromSorted(s: seq<DayForecast>, today: CalendarDay)
    requires SortedByDate(s)
    ensures SortedByDate(KeepFrom(s, today))
    decreases |s|
  {
    if s != [] {
      var t := KeepFrom(s[1..], today);
      KeepFromSorted(s[1..], today);
      KeepFromMultiset(s[1..], today);
      if NotAfter(today, s[0].date) {
        forall k | 0 <= k < |t|
          ensures NotAfter(s[0].date, t[k].date)
        {
          assert t[k] in multiset(t);
          assert t[k] in multiset(s[1..]);
          var m :| 0 <= m < |s[1..]| && s[1..][m] == t[k];
          assert s[m + 1] == t[k];
        }
        forall i, j | 0 <= i < j < |[s[0]] + t|
          ensures NotAfter(([s[0]] + t)[i].date, ([s[0]] + t)[j].date)
        {
          if i > 0 {
            assert ([s[0]] + t)[i] == t[i - 1] && ([s[0]] + t)[j] == t[j - 1];
          } else {
            assert ([s[0]] + t)[j] == t[j - 1];
          }
        }
      } else {
        assert KeepFrom(s, today) == t;
      }
    }
  }

  /** The entries the daily report shows: sorted ascending by date, equal dates in their
      original order, every entry from today on kept and every earlier one dropped. */
  function Retained(ws: seq<DayForecast>, today: CalendarDay): (r: seq<DayForecast>)
    ensures SortedByDate(r)
    ensures forall i :: 0 <= i < |r| ==> NotAfter(today, r[i].date)
    ensures forall x :: multiset(r)[x] == if NotAfter(today, x.date) then multiset(ws)[x] else 0
    ensures forall d :: OnDay(r, d) == if NotAfter(today, d) then OnDay(ws, d) else []
  {
    var sorted := SortByDate(ws);
    SortByDateProperties(ws);
    KeepFromSorted(sorted, today);
    KeepFromMultiset(sorted, today);
    var r := KeepFrom(sorted, today);
    forall d
      ensures OnDay(r, d) == if NotAfter(today, d) then OnDay(ws, d) else []
    {
      KeepFromOnDay(sorted, today, d);
    }
    forall i | 0 <= i < |r|
      ensures NotAfter(today, r[i].date)
    {
      assert multiset(r)[r[i]] > 0;
    }
    r
  }

  /** How a day block is headed: "今天", or the unpadded month/day and the weekday. */
  datatype DayLabel = TodayLabel | DatedLabel(monthDay: string, week: string)

  datatype DayBlock = DayBlock(heading: DayLabel, icon: WeatherIcon, forecast: DayForecast)

  function LabelFor(i: nat, f: DayForecast): DayLabel {
    if i == 0 then TodayLabel else DatedLabel(MonthDayLabel(f.date), f.week)
  }

  /** One block per kept entry, in order; only the first is headed "今天". */
  function DayBlocks(kept: seq<DayForecast>): (r: seq<DayBlock>)
    ensures |r| == |kept|
    ensures forall i :: 0 <= i < |r| ==> r[i].forecast == kept[i]
    ensures forall i :: 0 <= i < |r| ==> r[i].icon == IconFor(kept[i].weather)
    ensures forall i :: 0 <= i < |r| ==> (r[i].heading.TodayLabel? <==> i == 0)
    ensures forall i :: 0 < i < |r| ==> r[i].heading == DatedLabel(MonthDayLabel(kept[i].date), kept[i].week)
  {
    seq(|kept|, i requires 0 <= i < |kept| => DayBlock(LabelFor(i, kept[i]), IconFor(kept[i].weather), kept[i]))
  }

  /** The block headed "今天" shows the earliest retained day, which is today or later but
      need not be today: with no entry for today, the first future day carries the label. */
  lemma TodayBlockIsEarliestRetained(ws: seq<DayForecast>, today: CalendarDay)
    ensures var bs := DayBlocks(Retained(ws, today));
            bs != [] ==>
                  && bs[0].heading.TodayLabel?
                  && NotAfter(today, bs[0].forecast.date)
                  && (forall i :: 0 <= i < |bs| ==> NotAfter(bs[0].forecast.date, bs[i].forecast.date))
                  && (forall i :: 0 < i < |bs| ==> bs[i].heading.DatedLabel?)
  {
    var r := Retained(ws, today);
    var bs := DayBlocks(r);
    if bs != [] {
      forall i | 0 <= i < |bs|
        ensures NotAfter(bs[0].forecast.date, bs[i].forecast.date)
      {
        if i > 0 {
          assert NotAfter(r[0].date, r[i].date);
        }
      }
    }
  }

  /** The report has no day blocks exactly when every entry is dated before today. */
  lemma NoBlocksExactlyWhenAllPast(ws: seq<DayForecast>, today: CalendarDay)
    ensures DayBlocks(Retained(ws, today)) == [] <==> forall j :: 0 <= j < |ws| ==> !NotAfter(today, ws[j].date)
  {
    var r := Retained(ws, today);
    if exists j :: 0 <= j < |ws| && NotAfter(today, ws[j].date) {
      var j :| 0 <= j < |ws| && NotAfter(today, ws[j].date);
      assert multiset(ws)[ws[j]] > 0;
      assert multiset(r)[ws[j]] > 0;
    }
    if r != [] {
      assert multiset(r)[r[0]] > 0;
      assert multiset(ws)[r[0]] > 0;
    }
  }

  /** When the list has an entry for today, the block headed "今天" is indeed today's. */
  lemma TodayBlockIsTodayWhenListed(ws: seq<DayForecast>, today: CalendarDay, j: nat)
    requires j < |ws| && ws[j].date == today
    ensures var bs := DayBlocks(Retained(ws, today));
            bs != [] && bs[0].heading.TodayLabel? && bs[0].forecast.date == today
  {
    var r := Retained(ws, today);
    NotAfterIsTotalOrder(today, today, today);
    assert multiset(r)[ws[j]] == multiset(ws)[ws[j]] > 0;
    var k :| 0 <= k < |r| && r[k] == ws[j];
    if k > 0 {
      assert NotAfter(r[0].date, r[k].date);
    }
    NotAfterIsTotalOrder(r[0].date, today, today);
  }

  /** The lines of one day block: heading, icon and condition, temperatures, sun times, blank. */
  function BlockLines(b: DayBlock): seq<string> {
    var f := b.forecast;
    var title := match b.heading
      case TodayLabel => "📆 今天:"
      case DatedLabel(md, week) => "📆 " + md + " " + week + ":";
    [ title,
      Glyph(b.icon) + " " + f.weather,
      "🌡️ " + f.tempDay + "°C / " + f.tempNight + "°C",
      "🌞 " + f.sunRise + " - " + f.sunDown,
      "" ]
  }

  function AllBlockLines(bs: seq<DayBlock>): (r: seq<string>)
    ensures |r| == 5 * |bs|
    ensures forall i :: 0 <= i < |bs| ==> r[5 * i..5 * i + 5] == BlockLines(bs[i])
  {
    if bs == [] then []
    else
      var rest := AllBlockLines(bs[1..]);
      var r := BlockLines(bs[0]) + rest;
      assert forall i :: 1 <= i < |bs| ==> r[5 * i..5 * i + 5] == rest[5 * (i - 1)..5 * (i - 1) + 5];
      r
  }

  /** `Math.floor(Math.random() * n)` for a draw in [0, 1): always a valid position in a
      list of `n` entries. */
  function TipIndex(draw: real, n: nat): (i: nat)
    requires 0.0 <= draw < 1.0 && n > 0
    ensures i < n
  {
    var x := draw * n as real;
    assert x < n as real;
    x.Floor
  }

  function TipLine(ix: LifeIndex): string {
    "💡 今日小贴士: " + ix.content
  }

  function DailyHead(b: CityBlock): seq<string> {
    ["📅 " + b.city + "未来天气预报:", ""]
  }

  function TipSection(indexes: seq<LifeIndex>, draw: real): (r: seq<string>)
    requires 0.0 <= draw < 1.0
  {
    if indexes == [] then [] else [TipLine(indexes[TipIndex(draw, |indexes|)])]
  }

  /** The heading, a body of five-line blocks, then the tip section: block `i` of the body
      starts at line 2 + 5i of the report. */
  lemma LayoutOfDaily(head: seq<string>, body: seq<string>, tip: seq<string>, n: nat)
    requires |head| == 2 && |tip| <= 1 && |body| == 5 * n
    ensures var r := head + body + tip;
            && |r| == 2 + 5 * n + |tip|
            && r[0] == head[0]
            && (forall i :: 0 <= i < n ==> r[2 + 5 * i..7 + 5 * i] == body[5 * i..5 * i + 5])
            && (|tip| == 1 ==> r[|r| - 1] == tip[0])
  {
  }

  /** The lines of the daily report, before trimming: the heading and a blank line, one
      five-line block per retained entry, then a tip when the payload has life indexes. */
  function DailyLines(b: CityBlock, today: CalendarDay, draw: real): (r: seq<string>)
    requires 0.0 <= draw < 1.0
    ensures var kept := Retained(OrEmpty(b.weathers), today);
            var idx := OrEmpty(b.indexes);
            && |r| == 2 + 5 * |kept| + (if idx == [] then 0 else 1)
            && r[0] == "📅 " + b.city + "未来天气预报:"
            && (forall i :: 0 <= i < |kept| ==> r[2 + 5 * i..7 + 5 * i] == BlockLines(DayBlocks(kept)[i]))
            && (idx != [] ==> r[|r| - 1] == TipLine(idx[TipIndex(draw, |idx|)]))
  {
    var kept := Retained(OrEmpty(b.weathers), today);
    var tip := TipSection(OrEmpty(b.indexes), draw);
    var body := AllBlockLines(DayBlocks(kept));
    LayoutOfDaily(DailyHead(b), body, tip, |kept|);
    DailyHead(b) + body + tip
  }
}

=== FILE: dates.dfy ===
/**
 Calendar days, the process clock reading, and the `YYYY-MM-DD` key the
 current-conditions report matches forecast dates against.
 */
module Dates {
  import opened Text

  /** A calendar day with a 1-based month, as the provider's `date` field names it. */
  datatype CalendarDay = CalendarDay(year: nat, month: nat, day: nat)

  /** One reading of the local clock, in the fields JavaScript's `Date` exposes:
      `getFullYear()`, the 0-based `getMonth()` and `getDate()`. */
  datatype Clock = Clock(fullYear: nat, monthIndex: nat, dayOfMonth: nat)

  /** The local calendar day of a clock reading (the month made 1-based). */
  function TodayOf(now: Clock): CalendarDay {
    CalendarDay(now.fullYear, now.monthIndex + 1, now.dayOfMonth)
  }

  /** Chronological order on days: `a` is on or before `b`. */
  predicate NotAfter(a: CalendarDay, b: CalendarDay) {
    || a.year < b.year
    || (a.year == b.year && a.month < b.month)
    || (a.year == b.year && a.month == b.month && a.day <= b.day)
  }

  lemma NotAfterIsTotalOrder(a: CalendarDay, b: CalendarDay, c: CalendarDay)
    ensures NotAfter(a, a)
    ensures NotAfter(a, b) || NotAfter(b, a)
    ensures NotAfter(a, b) && NotAfter(b, a) ==> a == b
    ensures NotAfter(a, b) && NotAfter(b, c) ==> NotAfter(a, c)
  {
  }

  predicate NoDash(s: string) {
    forall i :: 0 <= i < |s| ==> s[i] != '-'
  }

  /** The date key: the full year, then month and day each padded to at least two digits,
      separated by dashes. */
  function DateKey(d: CalendarDay): string
  {
    Digits(d.year) + "-" + PadStart2(Digits(d.month)) + "-" + PadStart2(Digits(d.day))
  }

  /** The key's month and day fields are padded with a leading '0' to two digits; wider
      numbers keep all their digits. */
  lemma DateKeyPadded(d: CalendarDay)
    ensures var r := DateKey(d);
            var y := |Digits(d.year)|;
            var m := if d.month < 10 then 2 else |Digits(d.month)|;
            var x := if d.day < 10 then 2 else |Digits(d.day)|;
            && |r| == y + m + x + 2
            && r[y] == '-' && r[y + m + 1] == '-'
            && (d.month < 10 ==> r[y + 1] == '0')
            && (d.day < 10 ==> r[y + m + 2] == '0')
  {
    var ys, ms, ds := Digits(d.year), PadStart2(Digits(d.month)), PadStart2(Digits(d.day));
    PaddedField(d.month);
    PaddedField(d.day);
    DashedLayout(ys, ms, ds);
    assert DateKey(d) == ys + "-" + ms + "-" + ds;
  }

  lemma PaddedField(n: nat)
    ensures |PadStart2(Digits(n))| == if n < 10 then 2 else |Digits(n)|
    ensures n < 10 ==> PadStart2(Digits(n))[0] == '0'
  {
  }

  /** Where the dashes and the fields' first characters sit in `a-b-c`. */
  lemma DashedLayout(a: string, b: string, c: string)
    requires |b| > 0 && |c| > 0
    ensures var r := a + "-" + b + "-" + c;
            && |r| == |a| + |b| + |c| + 2
            && r[|a|] == '-' && r[|a| + |b| + 1] == '-'
            && r[|a| + 1] == b[0] && r[|a| + |b| + 2] == c[0]
  {
  }

  /** The key of the day a clock reading falls on. */
  function TodayKey(now: Clock): string {
    DateKey(TodayOf(now))
  }

  /** Today's key reads back as the clock's full year, its 0-based month index plus one,
      and its day of the month. */
  lemma TodayKeyReadsBack(now: Clock)
    ensures ParseKey(TodayKey(now)) == Some(CalendarDay(now.fullYear, now.monthIndex + 1, now.dayOfMonth))
  {
    KeyRoundTrip(TodayOf(now));
  }

  lemma DigitsNoDash(n: nat)
    ensures NoDash(Digits(n)) && NoDash(PadStart2(Digits(n)))
  {
    var s := Digits(n);
    var p := PadStart2(s);
    forall i | 0 <= i < |p|
      ensures p[i] != '-'
    {
      if i >= |p| - |s| {
        assert p[i] == p[|p| - |s|..][i - (|p| - |s|)] == s[i - (|p| - |s|)];
      }
    }
  }

  /** Position of the first dash in `s` (its length when there is none). */
  function FirstDash(s: string): (r: nat)
    ensures r <= |s|
  {
    if s == [] || s[0] == '-' then 0 else 1 + FirstDash(s[1..])
  }

  lemma {:induction false} FirstDashAfterHead(a: string, b: string)
    requires NoDash(a)
    ensures FirstDash(a + "-" + b) == |a|
    decreases |a|
  {
    var s := a + "-" + b;
    if a == [] {
      assert s[0] == '-';
    } else {
      assert s[0] == a[0];
      assert s[1..] == a[1..] + "-" + b;
      FirstDashAfterHead(a[1..], b);
    }
  }

  /** A non-empty run of decimal digits, read as a number. */
  function ReadNumber(s: string): Option<nat> {
    if s != [] && AllDigits(s) then Some(ValueOf(s)) else None
  }

  /** Reading a key back: the three dash-separated fields, each a run of digits. */
  function ParseKey(k: string): Option<CalendarDay> {
    var i := FirstDash(k);
    if i == |k| then None
    else
      var rest := k[i + 1..];
      var j := FirstDash(rest);
      if j == |rest| then None
      else
        match (ReadNumber(k[..i]), ReadNumber(rest[..j]), ReadNumber(rest[j + 1..]))
        case (Some(y), Some(m), Some(x)) => Some(CalendarDay(y, m, x))
        case _ => None
  }

  /** Splitting `a-rest` at its first dash gives back `a` and `rest`. */
  lemma SplitHead(a: string, rest: string)
    requires NoDash(a)
    ensures var s := a + "-" + rest; FirstDash(s) == |a| < |s| && s[..|a|] == a && s[|a| + 1..] == rest
  {
    FirstDashAfterHead(a, rest);
    var s := a + "-" + rest;
    assert s[..|a|] == a;
    assert s[|a| + 1..] == rest;
  }

  lemma ReadDigits(n: nat)
    ensures ReadNumber(Digits(n)) == Some(n) && ReadNumber(PadStart2(Digits(n))) == Some(n)
  {
    DigitsRoundTrip(n);
    PaddedRoundTrip(n);
  }

  lemma ParseFields(ys: string, ms: string, ds: string, d: CalendarDay)
    requires NoDash(ys) && NoDash(ms)
    requires ReadNumber(ys) == Some(d.year) && ReadNumber(ms) == Some(d.month) && ReadNumber(ds) == Some(d.day)
    ensures ParseKey(ys + "-" + (ms + "-" + ds)) == Some(d)
  {
    SplitHead(ys, ms + "-" + ds);
    SplitHead(ms, ds);
  }

  /** Every key reads back as its day. */
  lemma KeyRoundTrip(d: CalendarDay)
    ensures ParseKey(DateKey(d)) == Some(d)
  {
    var ys, ms, ds := Digits(d.year), PadStart2(Digits(d.month)), PadStart2(Digits(d.day));
    DigitsNoDash(d.year);
    DigitsNoDash(d.month);
    ReadDigits(d.year);
    ReadDigits(d.month);
    ReadDigits(d.day);
    assert DateKey(d) == ys + "-" + (ms + "-" + ds);
    ParseFields(ys, ms, ds, d);
  }

  /** Keys match exactly when the days are the same: matching forecast dates by their key
      is matching them by day. */
  lemma DateKeyInjective(d1: CalendarDay, d2: CalendarDay)
    ensures DateKey(d1) == DateKey(d2) <==> d1 == d2
  {
    if DateKey(d1) == DateKey(d2) {
      KeyRoundTrip(d1);
      KeyRoundTrip(d2);
    }
  }

  /** The unpadded `M月D日` label the daily report gives a day: the month's digits up to
      月 read back as the month, and the digits between 月 and the closing 日 as the day. */
  function MonthDayLabel(d: CalendarDay): (r: string)
    ensures |r| == |Digits(d.month)| + |Digits(d.day)| + 2
    ensures var m := |Digits(d.month)|;
            && m + 3 <= |r| && r[m] == '月' && r[|r| - 1] == '日'
            && ReadNumber(r[..m]) == Some(d.month) && ReadNumber(r[m + 1..|r| - 1]) == Some(d.day)
  {
    var ms, ds := Digits(d.month), Digits(d.day);
    ReadDigits(d.month);
    ReadDigits(d.day);
    LabelFields(ms, ds);
    ms + "月" + ds + "日"
  }

  /** Where the two numbers of a `M月D日` label sit. */
  lemma LabelFields(a: string, b: string)
    ensures var r := a + "月" + b + "日";
            && |r| == |a| + |b| + 2 && r[|a|] == '月' && r[|r| - 1] == '日'
            && r[..|a|] == a && r[|a| + 1..|r| - 1] == b
  {
    var r := a + "月" + b + "日";
    assert r[..|a|] == a;
    assert r[|a| + 1..|r| - 1] == b;
  }
}

=== FILE: hourly.dfy ===
/**
 The three-hour report (`query_hourly_forecast`): the interval list is shown
 as received, one block per interval, with a precipitation line only for
 intervals that report some.
 */
module Hourly {
  import opened Text
  import opened Payload
  import opened Icons

  /** `weatherData.weatherDetailsInfo?.weather3HoursDetailsInfos || []`. */
  function Intervals(b: CityBlock): seq<IntervalForecast> {
    match b.details
    case None => []
    case Some(info) => OrEmpty(info.intervals)
  }

  /** `forecast.precipitation && forecast.precipitation !== "0"`: present, non-empty and not "0". */
  predicate ReportsRainfall(precipitation: Option<string>) {
    precipitation.Some? && precipitation.value != "" && precipitation.value != "0"
  }

  datatype HourBlock = HourBlock(interval: IntervalForecast, icon: WeatherIcon, rainfall: Option<string>)

  function BlockFor(x: IntervalForecast): HourBlock {
    HourBlock(x, IconFor(x.weather), if ReportsRainfall(x.precipitation) then x.precipitation else None)
  }

  /** One block per interval, in input order: no sorting and no filtering. A block carries a
      rainfall amount exactly when its interval reports one, and then it is that amount. */
  function HourBlocks(xs: seq<IntervalForecast>): (r: seq<HourBlock>)
    ensures |r| == |xs|
    ensures forall i :: 0 <= i < |r| ==> r[i].interval == xs[i] && r[i].icon == IconFor(xs[i].weather)
    ensures forall i :: 0 <= i < |r| ==> (r[i].rainfall.Some? <==> ReportsRainfall(xs[i].precipitation))
    ensures forall i :: 0 <= i < |r| && r[i].rainfall.Some? ==> r[i].rainfall == xs[i].precipitation
  {
    if xs == [] then []
    else
      var rest := HourBlocks(xs[1..]);
      var r := [BlockFor(xs[0])] + rest;
      assert forall i :: 1 <= i < |r| ==> r[i] == rest[i - 1] && xs[i] == xs[1..][i - 1];
      r
  }

  /** The lines of one block: the hour range, icon and condition, temperature range, the
      precipitation line when there is one, and a blank line. */
  function BlockLines(b: HourBlock): (r: seq<string>)
    ensures |r| == if b.rainfall.Some? then 5 else 4
    ensures b.rainfall.Some? <==> r[3] != ""
    ensures b.rainfall.Some? ==> Contains(r[3], b.rainfall.value)
    ensures r[|r| - 1] == ""
  {
    var x := b.interval;
    [ "🕒 " + Digits(x.startHour) + ":00-" + Digits(x.endHour) + ":00:",
      Glyph(b.icon) + " " + x.weather,
      "🌡️ " + x.lowestTemp + "°C - " + x.highestTemp + "°C" ]
    + (match b.rainfall
       case Some(p) =>
         ContainsMiddle("💧 降水量: ", p, "mm");
         ["💧 降水量: " + p + "mm"]
       case None => [])
    + [""]
  }

  /** The lines of each block, in order. */
  function BlockTexts(bs: seq<HourBlock>): (r: seq<seq<string>>)
    ensures |r| == |bs| && forall i :: 0 <= i < |bs| ==> r[i] == BlockLines(bs[i])
  {
    seq(|bs|, i requires 0 <= i < |bs| => BlockLines(bs[i]))
  }

  /** The blocks one after the other. */
  function AllBlockLines(bs: seq<HourBlock>): (r: seq<string>)
    ensures |r| >= 4 * |bs|
  {
    ConcatAtLeast(BlockTexts(bs), 4);
    Concat(BlockTexts(bs))
  }

  /** Where block `i` starts: the number of lines of the blocks before it. */
  function Offset(bs: seq<HourBlock>, i: nat): nat
    requires i <= |bs|
  {
    Start(BlockTexts(bs), i)
  }

  /** Block `i` occupies the lines from its offset on, and the blocks fill the lines. */
  lemma BlockAtOffset(bs: seq<HourBlock>, i: nat)
    requires i < |bs|
    ensures var r := AllBlockLines(bs);
            && |r| == Offset(bs, |bs|)
            && Offset(bs, i) + |BlockLines(bs[i])| <= |r|
            && r[Offset(bs, i)..Offset(bs, i) + |BlockLines(bs[i])|] == BlockLines(bs[i])
  {
    PartAt(BlockTexts(bs), i);
  }

  /** The message for a payload without intervals; it names the city as the caller wrote it. */
  function NoDataMessage(city: string): string {
    "暂无" + city + "未来几小时的精细天气预报数据"
  }

  /** The report's lines before trimming, or `None` when there are no intervals to show. */
  function HourlyLines(b: CityBlock): (r: Option<seq<string>>)
    ensures r.None? <==> Intervals(b) == []
    ensures r.Some? ==> |r.value| >= 2 + 4 * |Intervals(b)|
    ensures r.Some? ==> r.value[0] == "⏱️ " + b.city + "未来逐3小时天气预报:"
    ensures r.Some? ==> r.value[2..] == AllBlockLines(HourBlocks(Intervals(b)))
  {
    var xs := Intervals(b);
    if xs == [] then None
    else
      var r := ["⏱️ " + b.city + "未来逐3小时天气预报:", ""] + AllBlockLines(HourBlocks(xs));
      assert r[2..] == AllBlockLines(HourBlocks(xs));
      Some(r)
  }
}

=== FILE: icons.dfy ===
/**
 The two icon classifiers: the weather icon chosen from the condition text by
 an ordered list of substring rules, and the emoji of a life index.
 */
module Icons {
  import opened Text

  datatype WeatherIcon = Sunny | Rainy | Snowy | Foggy | Stormy | Cloudy

  function Glyph(icon: WeatherIcon): string {
    match icon
    case Sunny => "☀️"
    case Rainy => "🌧️"
    case Snowy => "❄️"
    case Foggy => "🌫️"
    case Stormy => "⛈️"
    case Cloudy => "☁️"
  }

  /** The icon chain of the daily and hourly reports, in the order it is written. */
  function IconFor(weather: string): WeatherIcon {
    if Contains(weather, "晴") then Sunny
    else if Contains(weather, "雨") then Rainy
    else if Contains(weather, "雪") then Snowy
    else if Contains(weather, "雾") then Foggy
    else if Contains(weather, "雷") then Stormy
    else Cloudy
  }

  /** The same rules as data: a pattern and the icon it selects, tried in order. */
  const IconRules: seq<(string, WeatherIcon)> :=
    [("晴", Sunny), ("雨", Rainy), ("雪", Snowy), ("雾", Foggy), ("雷", Stormy)]

  /** Generic first-match-wins selection over ordered substring rules. */
  function FirstMatch<T>(rules: seq<(string, T)>, text: string, fallback: T): (r: T)
    ensures (exists i :: 0 <= i < |rules| && Contains(text, rules[i].0) && r == rules[i].1
               && forall j :: 0 <= j < i ==> !Contains(text, rules[j].0))
         || ((forall j :: 0 <= j < |rules| ==> !Contains(text, rules[j].0)) && r == fallback)
  {
    if rules == [] then fallback
    else if Contains(text, rules[0].0) then rules[0].1
    else
      var r := FirstMatch(rules[1..], text, fallback);
      assert forall j :: 1 <= j < |rules| ==> rules[j] == rules[1..][j - 1];
      r
  }

  /** The written chain is first-match-wins over the rule list, with the cloudy default. */
  lemma IconForIsFirstMatch(weather: string)
    ensures IconFor(weather) == FirstMatch(IconRules, weather, Cloudy)
  {
    var rules := IconRules;
    assert rules[1..] == [("雨", Rainy), ("雪", Snowy), ("雾", Foggy), ("雷", Stormy)];
    assert rules[2..] == rules[1..][1..] == [("雪", Snowy), ("雾", Foggy), ("雷", Stormy)];
    assert rules[3..] == rules[2..][1..] == [("雾", Foggy), ("雷", Stormy)];
    assert rules[4..] == rules[3..][1..] == [("雷", Stormy)];
    assert rules[4..][1..] == [];
    assert FirstMatch(rules[4..], weather, Cloudy) == IconFor(weather) || Contains(weather, "晴")
      || Contains(weather, "雨") || Contains(weather, "雪") || Contains(weather, "雾");
    assert FirstMatch(rules[3..], weather, Cloudy) == IconFor(weather) || Contains(weather, "晴")
      || Contains(weather, "雨") || Contains(weather, "雪");
    assert FirstMatch(rules[2..], weather, Cloudy) == IconFor(weather) || Contains(weather, "晴")
      || Contains(weather, "雨");
    assert FirstMatch(rules[1..], weather, Cloudy) == IconFor(weather) || Contains(weather, "晴");
  }

  /** Each icon, characterised by which patterns the text contains: an icon is chosen
      exactly when its pattern occurs and no earlier pattern does. */
  lemma IconForCharacterised(weather: string)
    ensures IconFor(weather) == Sunny <==> Contains(weather, "晴")
    ensures IconFor(weather) == Rainy <==> !Contains(weather, "晴") && Contains(weather, "雨")
    ensures IconFor(weather) == Snowy <==>
              !Contains(weather, "晴") && !Contains(weather, "雨") && Contains(weather, "雪")
    ensures IconFor(weather) == Foggy <==>
              !Contains(weather, "晴") && !Contains(weather, "雨") && !Contains(weather, "雪")
              && Contains(weather, "雾")
    ensures IconFor(weather) == Stormy <==>
              !Contains(weather, "晴") && !Contains(weather, "雨") && !Contains(weather, "雪")
              && !Contains(weather, "雾") && Contains(weather, "雷")
    ensures IconFor(weather) == Cloudy <==>
              !Contains(weather, "晴") && !Contains(weather, "雨") && !Contains(weather, "雪")
              && !Contains(weather, "雾") && !Contains(weather, "雷")
  {
  }

  /** Rain outranks thunder: a thunderstorm text such as "雷阵雨" gets the rain icon. */
  lemma ThunderShowerIsRainy(weather: string)
    requires Contains(weather, "雷") && Contains(weather, "雨") && !Contains(weather, "晴")
    ensures IconFor(weather) == Rainy
    ensures Glyph(IconFor(weather)) == "🌧️"
  {
  }

  /** The thunder-shower text itself gets the rain icon. */
  lemma ThunderShowerText()
    ensures IconFor("雷阵雨") == Rainy
  {
    ContainsChar("雷阵雨", '晴');
    ContainsChar("雷阵雨", '雨');
  }

  /** The life-index abbreviations that have an emoji of their own. */
  const KnownIndexCodes: set<string> := {"ct", "pp", "gm", "xc", "yd", "uv"}

  /** The emoji of a life index, chosen by a switch on its abbreviation with `ℹ️` as default. */
  function IndexEmoji(abbreviation: string): (r: string)
    ensures r in {"👕", "💄", "🤧", "🚗", "🏃", "☀️", "ℹ️"}
    ensures r == "ℹ️" <==> abbreviation !in KnownIndexCodes
  {
    match abbreviation
    case "ct" => "👕"
    case "pp" => "💄"
    case "gm" => "🤧"
    case "xc" => "🚗"
    case "yd" => "🏃"
    case "uv" => "☀️"
    case _ => "ℹ️"
  }

  /** The six known codes get six different emojis. */
  lemma IndexEmojiDistinguishesKnownCodes(a: string, b: string)
    requires a in KnownIndexCodes && b in KnownIndexCodes
    ensures IndexEmoji(a) == IndexEmoji(b) <==> a == b
  {
  }
}

=== FILE: payload.dfy ===
/**
 The decoded upstream payload: the `listWeather` envelope and the city
 block it carries, and the outcome of one fetch of it. Scalar fields are
 kept as the strings the provider sends; optional sections are `Option`s.
 */
module Payload {
  import opened Text
  import opened Dates

  /** A value, or the message of the error that was thrown instead. */
  datatype Result<T> = Ok(value: T) | Fault(message: string)

  /** The `realtime` snapshot. */
  datatype Realtime = Realtime(
    time: string, temp: string, sendibleTemp: string, weather: string,
    humidity: string, windDirection: string, windScale: string)

  /** One entry of `weathers`: a day's forecast. The provider's `date` string is the
      zero-padded ISO form of `date`, that is `DateKey(date)`. */
  datatype DayForecast = DayForecast(
    date: CalendarDay, week: string, weather: string,
    tempDay: string, tempNight: string, sunRise: string, sunDown: string)

  /** One entry of `weatherDetailsInfo.weather3HoursDetailsInfos`. The start and end
      times are kept as the local hours the report prints. */
  datatype IntervalForecast = IntervalForecast(
    startHour: nat, endHour: nat, weather: string,
    lowestTemp: string, highestTemp: string, precipitation: Option<string>)

  /** The `weatherDetailsInfo` object, whose interval list may itself be missing. */
  datatype DetailsInfo = DetailsInfo(intervals: Option<seq<IntervalForecast>>)

  /** One life index (`indexes` entry). */
  datatype LifeIndex = LifeIndex(abbreviation: string, name: string, level: string, content: string)

  /** The `pm25` air-quality object. */
  datatype AirQuality = AirQuality(quality: string, aqi: string, pm25: string, pm10: string)

  /** `value[0]`: everything the provider says about one city. */
  datatype CityBlock = CityBlock(
    city: string, provinceName: string,
    realtime: Option<Realtime>,
    weathers: Option<seq<DayForecast>>,
    pm25: Option<AirQuality>,
    details: Option<DetailsInfo>,
    indexes: Option<seq<LifeIndex>>)

  /** The decoded envelope. A missing `value` list is the empty list. */
  datatype Envelope = Envelope(code: string, value: seq<CityBlock>, message: Option<string>)

  /** What one fetch of the provider yields: a request that is rejected before any response
      (a DNS or connection failure, with the error's message), a non-2xx HTTP status, a body
      that is not JSON (with the parser's message), or a decoded envelope. */
  datatype Fetched =
    | FetchRejected(message: string)
    | HttpFailure(status: nat, statusText: string)
    | BodyNotJson(reason: string)
    | Decoded(envelope: Envelope)

  /** `x || []` on an optional list. */
  function OrEmpty<T>(o: Option<seq<T>>): seq<T>
  {
    match o
    case Some(s) => s
    case None => []
  }
}

=== FILE: pipeline.dfy ===
/**
 The operation dispatcher: each of the three tools resolves the city, fetches
 and validates the envelope, builds its report, and turns every thrown error
 into an error-flagged reply. The three handlers differ only in their wording
 and in the report they build, so they are modelled as one function taking
 the operation as a parameter. The fetch, the clock and the random draw are
 parameters.
 */
module Pipeline {
  import opened Text
  import opened Dates
  import opened Payload
  import opened Cities
  import Current
  import Daily
  import Hourly

  datatype Operation = QueryWeather | QueryForecast | QueryHourlyForecast

  /** What the unsupported-city advisory says was asked for. */
  function Subject(op: Operation): string {
    match op
    case QueryWeather => "天气信息"
    case QueryForecast => "天气预报"
    case QueryHourlyForecast => "精细天气预报"
  }

  /** The prefix of the operation's error replies. */
  function ErrorPrefix(op: Operation): string {
    match op
    case QueryWeather => "查询天气时出错: "
    case QueryForecast => "查询天气预报时出错: "
    case QueryHourlyForecast => "查询精细天气预报时出错: "
  }

  /** The one text item of a tool reply, and whether it carries `isError: true`. */
  datatype Reply = Reply(text: string, isError: bool)

  /** `data.message || "未知错误"`: an absent or empty provider message reads as unknown. */
  function ProviderMessage(env: Envelope): (m: string)
    ensures env.message.Some? && env.message.value != "" ==> m == env.message.value
    ensures env.message.None? || env.message.value == "" ==> m == "未知错误"
  {
    match env.message
    case Some(msg) => if msg != "" then msg else "未知错误"
    case None => "未知错误"
  }

  /** The envelope check: only code "200" with a first city block is accepted, and then
      that block is used; anything else fails with the provider's message. */
  function ValidateEnvelope(env: Envelope): (r: Result<CityBlock>)
    ensures r.Ok? <==> env.code == "200" && |env.value| > 0
    ensures r.Ok? ==> r.value == env.value[0]
    ensures r.Fault? ==> r.message == "获取天气数据失败: " + ProviderMessage(env)
  {
    if env.code != "200" || |env.value| == 0 then Fault("获取天气数据失败: " + ProviderMessage(env))
    else Ok(env.value[0])
  }

  /** The message thrown for a non-2xx HTTP response. */
  function HttpErrorMessage(status: nat, statusText: string): string {
    "天气API返回错误: " + Digits(status) + " " + statusText
  }

  /** The HTTP error message names both the decimal status code and the status text. */
  lemma HttpMessageNamesStatus(status: nat, statusText: string)
    ensures Contains(HttpErrorMessage(status, statusText), Digits(status))
    ensures Contains(HttpErrorMessage(status, statusText), statusText)
  {
    var a := "天气API返回错误: ";
    var d := Digits(status);
    ContainsMiddle(a, d, " " + statusText);
    assert a + d + (" " + statusText) == HttpErrorMessage(status, statusText);
    ContainsMiddle(a + d + " ", statusText, "");
    assert a + d + " " + statusText + "" == HttpErrorMessage(status, statusText);
  }

  /** From one fetch to the city block, or to the message of the error thrown on the way:
      only a decoded envelope with code "200" and a first block succeeds, and then with that
      block; an HTTP failure names its status, a rejected request or an unparsable body passes its error's message
      on, and a rejected envelope carries the provider's message. */
  function FetchBlock(f: Fetched): (r: Result<CityBlock>)
    ensures r.Ok? <==> f.Decoded? && f.envelope.code == "200" && f.envelope.value != []
    ensures r.Ok? ==> r.value == f.envelope.value[0]
    ensures f.HttpFailure? ==> r.Fault? && Contains(r.message, Digits(f.status)) && Contains(r.message, f.statusText)
    ensures f.FetchRejected? ==> r == Fault(f.message)
    ensures f.BodyNotJson? ==> r == Fault(f.reason)
    ensures f.Decoded? && r.Fault? ==> r.message == "获取天气数据失败: " + ProviderMessage(f.envelope)
  {
    match f
    case HttpFailure(status, text) =>
      HttpMessageNamesStatus(status, text);
      Fault(HttpErrorMessage(status, text))
    case FetchRejected(message) => Fault(message)
    case BodyNotJson(reason) => Fault(reason)
    case Decoded(env) => ValidateEnvelope(env)
  }

  /** What the operation makes of a validated city block: report lines to be trimmed, a
      plain informational message, or the message of a thrown error. */
  datatype Produced = Report(lines: seq<string>) | Notice(text: string) | Thrown(message: string)

  function Produce(op: Operation, city: string, b: CityBlock, now: Clock, draw: real): (r: Produced)
    requires 0.0 <= draw < 1.0
    ensures r.Thrown? <==> op == QueryWeather && Current.CurrentLines(b, now).Fault?
    ensures r.Notice? <==> op == QueryHourlyForecast && Hourly.Intervals(b) == []
    ensures r.Notice? ==> r.text == Hourly.NoDataMessage(city)
    ensures r.Thrown? ==> Current.CurrentLines(b, now) == Fault(r.message)
    ensures op == QueryWeather && Current.CurrentLines(b, now).Ok? ==>
              r == Report(Current.CurrentLines(b, now).value)
    ensures op == QueryForecast ==> r == Report(Daily.DailyLines(b, TodayOf(now), draw))
    ensures op == QueryHourlyForecast && Hourly.Intervals(b) != [] ==>
              r == Report(Hourly.HourlyLines(b).value)
  {
    match op
    case QueryWeather =>
      (match Current.CurrentLines(b, now)
       case Ok(lines) => Report(lines)
       case Fault(m) => Thrown(m))
    case QueryForecast => Report(Daily.DailyLines(b, TodayOf(now), draw))
    case QueryHourlyForecast =>
      (match Hourly.HourlyLines(b)
       case Some(lines) => Report(lines)
       case None => Notice(Hourly.NoDataMessage(city)))
  }

  /** The four ways a call can end, stated without reference to any reply text. */
  datatype Ending = Unsupported | Failed | NoData | Reported

  function EndingOf(op: Operation, city: string, upstream: string -> Fetched, now: Clock): Ending {
    match Resolve(city)
    case None => Unsupported
    case Some(id) =>
      match FetchBlock(upstream(id))
      case Fault(_) => Failed
      case Ok(b) =>
        if op == QueryWeather && Current.CurrentLines(b, now).Fault? then Failed
        else if op == QueryHourlyForecast && Hourly.Intervals(b) == [] then NoData
        else Reported
  }

  /** The reply for a validated block: report lines are joined and trimmed, a notice is
      returned as it is, and a thrown error becomes a flagged reply behind the prefix. */
  function ReplyFor(op: Operation, p: Produced): (r: Reply)
    ensures r.isError <==> p.Thrown?
    ensures r.isError ==> |r.text| >= |ErrorPrefix(op)| && r.text[..|ErrorPrefix(op)|] == ErrorPrefix(op)
    ensures p.Thrown? ==> r.text == ErrorPrefix(op) + p.message
    ensures p.Notice? ==> r.text == p.text
    ensures p.Report? ==> r.text == Trim(Lines(p.lines))
    ensures p.Report? ==> r.text == [] || (!IsSpace(r.text[0]) && !IsSpace(r.text[|r.text| - 1]))
  {
    match p
    case Report(lines) =>
      var t := Trim(Lines(lines));
      assert t == [] || (!IsSpace(t[0]) && !IsSpace(t[|t| - 1]));
      Reply(t, false)
    case Notice(text) => Reply(text, false)
    case Thrown(m) =>
      var t := ErrorPrefix(op) + m;
      assert t[..|ErrorPrefix(op)|] == ErrorPrefix(op);
      Reply(t, true)
  }

  /** One tool call. `upstream` answers the fetch for a provider city identifier, `now` is
      the clock reading and `draw` the value of `Math.random()`. Exactly the failed calls
      carry the error flag, behind the operation's prefix; an unsupported city gets the
      advisory naming every supported city, a payload without intervals the no-data
      notice, and a finished report comes back trimmed. */
  function Handle(op: Operation, city: string, upstream: string -> Fetched, now: Clock, draw: real): (r: Reply)
    requires 0.0 <= draw < 1.0
    ensures r.isError <==> EndingOf(op, city, upstream, now) == Failed
    ensures r.isError ==> |r.text| >= |ErrorPrefix(op)| && r.text[..|ErrorPrefix(op)|] == ErrorPrefix(op)
    ensures EndingOf(op, city, upstream, now) == Unsupported ==> r.text == Advisory(city, Subject(op))
    ensures EndingOf(op, city, upstream, now) == NoData ==> r.text == Hourly.NoDataMessage(city)
    ensures EndingOf(op, city, upstream, now) == Reported ==>
              r.text == [] || (!IsSpace(r.text[0]) && !IsSpace(r.text[|r.text| - 1]))
    ensures Resolve(city).Some? && FetchBlock(upstream(Resolve(city).value)).Fault? ==>
              r.text == ErrorPrefix(op) + FetchBlock(upstream(Resolve(city).value)).message
    ensures Resolve(city).Some? && FetchBlock(upstream(Resolve(city).value)).Ok? ==>
              r == ReplyFor(op, Produce(op, city, FetchBlock(upstream(Resolve(city).value)).value, now, draw))
  {
    match Resolve(city)
    case None => Reply(Advisory(city, Subject(op)), false)
    case Some(id) =>
      match FetchBlock(upstream(id))
      case Fault(m) =>
        assert (ErrorPrefix(op) + m)[..|ErrorPrefix(op)|] == ErrorPrefix(op);
        Reply(ErrorPrefix(op) + m, true)
      case Ok(b) =>
        var p := Produce(op, city, b, now, draw);
        assert p.Thrown? <==> EndingOf(op, city, upstream, now) == Failed;
        assert p.Notice? <==> EndingOf(op, city, upstream, now) == NoData;
        ReplyFor(op, p)
  }

  /** A non-2xx response is reported as an error naming its status code and status text. */
  lemma HttpStatusIsReported(op: Operation, city: string, upstream: string -> Fetched, now: Clock, draw: real)
    requires 0.0 <= draw < 1.0
    requires Resolve(city).Some? && upstream(Resolve(city).value).HttpFailure?
    ensures var r := Handle(op, city, upstream, now, draw);
            && r.isError
            && Contains(r.text, Digits(upstream(Resolve(city).value).status))
            && Contains(r.text, upstream(Resolve(city).value).statusText)
  {
    var f := upstream(Resolve(city).value);
    var m := FetchBlock(f).message;
    ContainsInSuffix(ErrorPrefix(op), m, Digits(f.status));
    ContainsInSuffix(ErrorPrefix(op), m, f.statusText);
  }

  lemma RejectionNamesMessage(prefix: string, env: Envelope)
    ensures Contains(prefix + ("获取天气数据失败: " + ProviderMessage(env)), ProviderMessage(env))
  {
    var a := prefix + "获取天气数据失败: ";
    ContainsMiddle(a, ProviderMessage(env), "");
    assert a + ProviderMessage(env) + "" == prefix + ("获取天气数据失败: " + ProviderMessage(env));
  }

  /** A rejected envelope is reported as an error carrying the provider's message, or
      "未知错误" when it sent none. */
  lemma EnvelopeMessageIsReported(op: Operation, city: string, upstream: string -> Fetched, now: Clock, draw: real)
    requires 0.0 <= draw < 1.0
    requires Resolve(city).Some? && upstream(Resolve(city).value).Decoded?
    requires var env := upstream(Resolve(city).value).envelope; env.code != "200" || env.value == []
    ensures var r := Handle(op, city, upstream, now, draw);
            var env := upstream(Resolve(city).value).envelope;
            && r.isError
            && Contains(r.text, ProviderMessage(env))
            && (env.message.None? ==> Contains(r.text, "未知错误"))
  {
    var env := upstream(Resolve(city).value).envelope;
    assert FetchBlock(upstream(Resolve(city).value)) == Fault("获取天气数据失败: " + ProviderMessage(env));
    RejectionNamesMessage(ErrorPrefix(op), env);
  }
}

=== FILE: text.dfy ===
/**
 Text helpers shared by the weather reports: decimal rendering of numbers
 (JavaScript's `String(n)` on a non-negative integer), `padStart(2, '0')`,
 substring containment (`includes`), `join`, line assembly and
 `String.prototype.trim`.
 */
module Text {
  datatype Option<T> = None | Some(value: T)

  predicate IsDigit(c: char) {
    '0' as int <= c as int <= '9' as int
  }

  function DigitChar(d: nat): (c: char)
    requires d < 10
    ensures IsDigit(c)
  {
    ['0', '1', '2', '3', '4', '5', '6', '7', '8', '9'][d]
  }

  predicate AllDigits(s: string) {
    forall i :: 0 <= i < |s| ==> IsDigit(s[i])
  }

  /** Numeric value of a string of decimal digits, read most significant first. */
  function ValueOf(s: string): nat
    requires AllDigits(s)
  {
    if s == [] then 0
    else
      assert IsDigit(s[|s| - 1]);
      ValueOf(s[..|s| - 1]) * 10 + (s[|s| - 1] as int - '0' as int)
  }

  /** Decimal rendering of a non-negative integer, without leading zeros. */
  function Digits(n: nat): (r: string)
    ensures |r| >= 1
    ensures forall i :: 0 <= i < |r| ==> IsDigit(r[i])
    ensures n < 10 <==> |r| == 1
    ensures n > 0 ==> r[0] != '0'
    decreases n
  {
    if n < 10 then [DigitChar(n)] else Digits(n / 10) + [DigitChar(n % 10)]
  }

  /** Reading back a rendered number gives the number: `Digits` loses nothing. */
  lemma {:induction false} DigitsRoundTrip(n: nat)
    ensures ValueOf(Digits(n)) == n
    decreases n
  {
    if n >= 10 {
      var s := Digits(n);
      DigitsRoundTrip(n / 10);
      assert s[..|s| - 1] == Digits(n / 10);
      assert s[|s| - 1] == DigitChar(n % 10);
    }
  }

  /** `s.padStart(2, '0')`: zeros are prepended until the string has two characters. */
  function PadStart2(s: string): (r: string)
    ensures |r| == if |s| < 2 then 2 else |s|
    ensures r[|r| - |s|..] == s
    ensures forall i :: 0 <= i < |r| - |s| ==> r[i] == '0'
  {
    if |s| == 0 then "00" else if |s| == 1 then ['0'] + s else s
  }

  /** A rendered number padded to two places is still all digits and reads back as the number. */
  lemma PaddedRoundTrip(n: nat)
    ensures AllDigits(PadStart2(Digits(n)))
    ensures ValueOf(PadStart2(Digits(n))) == n
  {
    var s := Digits(n);
    DigitsRoundTrip(n);
    if n < 10 {
      var p := PadStart2(s);
      assert p == ['0'] + s;
      assert p[..1] == ['0'];
      assert ValueOf(['0']) == 0 by {
        assert ['0'][..0] == [];
      }
      assert s[..0] == [];
    }
  }

  /** `p` occurs in `s` starting at position `i`. */
  predicate OccursAt(s: string, p: string, i: nat) {
    i + |p| <= |s| && s[i..i + |p|] == p
  }

  /** `s.includes(p)`. */
  predicate Contains(s: string, p: string) {
    exists i :: 0 <= i <= |s| - |p| && OccursAt(s, p, i)
  }

  lemma ContainsMiddle(a: string, p: string, b: string)
    ensures Contains(a + p + b, p)
  {
    var s := a + p + b;
    assert s[|a|..|a| + |p|] == p;
    assert OccursAt(s, p, |a|);
  }

  lemma ContainsInPrefix(s: string, t: string, p: string)
    requires Contains(s, p)
    ensures Contains(s + t, p)
  {
    var i :| 0 <= i <= |s| - |p| && OccursAt(s, p, i);
    assert (s + t)[i..i + |p|] == s[i..i + |p|];
    assert OccursAt(s + t, p, i);
  }

  lemma ContainsInSuffix(s: string, t: string, p: string)
    requires Contains(t, p)
    ensures Contains(s + t, p)
  {
    var i :| 0 <= i <= |t| - |p| && OccursAt(t, p, i);
    assert (s + t)[|s| + i..|s| + i + |p|] == t[i..i + |p|];
    assert OccursAt(s + t, p, |s| + i);
  }

  /** For a one-character pattern, containment is membership. */
  lemma ContainsChar(s: string, c: char)
    ensures Contains(s, [c]) <==> c in s
  {
    if c in s {
      var i :| 0 <= i < |s| && s[i] == c;
      assert s[i..i + 1] == [c];
      assert OccursAt(s, [c], i);
    }
    if Contains(s, [c]) {
      var i :| 0 <= i <= |s| - 1 && OccursAt(s, [c], i);
      assert s[i] == s[i..i + 1][0] == c;
    }
  }

  /** `parts.join(sep)`. */
  function Join(parts: seq<string>, sep: string): string
  {
    if |parts| == 0 then ""
    else if |parts| == 1 then parts[0]
    else parts[0] + sep + Join(parts[1..], sep)
  }

  /** Every joined part can be found in the joined text. */
  lemma {:induction false} JoinContainsParts(parts: seq<string>, sep: string, k: nat)
    requires k < |parts|
    ensures Contains(Join(parts, sep), parts[k])
    decreases |parts|
  {
    if |parts| == 1 {
      ContainsMiddle("", parts[0], "");
      assert "" + parts[0] + "" == parts[0];
    } else if k == 0 {
      ContainsMiddle("", parts[0], sep + Join(parts[1..], sep));
      assert "" + parts[0] + (sep + Join(parts[1..], sep)) == Join(parts, sep);
    } else {
      JoinContainsParts(parts[1..], sep, k - 1);
      ContainsInSuffix(parts[0] + sep, Join(parts[1..], sep), parts[k]);
      assert (parts[0] + sep) + Join(parts[1..], sep) == Join(parts, sep);
    }
  }

  /** A report built line by line: every line is followed by a newline. */
  function Lines(ls: seq<string>): (r: string)
    ensures |ls| > 0 ==> |r| > 0 && r[|r| - 1] == '\n'
  {
    if ls == [] then "" else ls[0] + "\n" + Lines(ls[1..])
  }

  /** Parts written one after the other. */
  function Concat(parts: seq<seq<string>>): seq<string> {
    if parts == [] then [] else parts[0] + Concat(parts[1..])
  }

  /** Where part `i` starts in `Concat(parts)`: the lengths of the parts before it. */
  function Start(parts: seq<seq<string>>, i: nat): nat
    requires i <= |parts|
  {
    if i == 0 then 0 else |parts[0]| + Start(parts[1..], i - 1)
  }

  /** Part `i` appears in full from its start, and the parts fill the whole. */
  lemma {:induction false} PartAt(parts: seq<seq<string>>, i: nat)
    requires i < |parts|
    ensures |Concat(parts)| == Start(parts, |parts|)
    ensures Start(parts, i) + |parts[i]| <= |Concat(parts)|
    ensures Concat(parts)[Start(parts, i)..Start(parts, i) + |parts[i]|] == parts[i]
    decreases |parts|
  {
    var head, rest := parts[0], Concat(parts[1..]);
    assert Concat(parts) == head + rest;
    if |parts| > 1 {
      PartAt(parts[1..], if i == 0 then 0 else i - 1);
    } else {
      assert |rest| == 0 == Start(parts[1..], 0);
    }
    if i == 0 {
      assert (head + rest)[..|head|] == head;
    } else {
      var j, n := Start(parts[1..], i - 1), |parts[i]|;
      assert parts[1..][i - 1] == parts[i];
      assert (head + rest)[|head| + j..|head| + j + n] == rest[j..j + n];
    }
  }

  /** Parts of at least `k` lines each give at least `k` lines per part. */
  lemma {:induction false} ConcatAtLeast(parts: seq<seq<string>>, k: nat)
    requires forall i :: 0 <= i < |parts| ==> |parts[i]| >= k
    ensures |Concat(parts)| >= k * |parts|
    decreases |parts|
  {
    if parts != [] {
      assert forall i :: 0 <= i < |parts| - 1 ==> parts[1..][i] == parts[i + 1];
      ConcatAtLeast(parts[1..], k);
      assert k * |parts| == k + k * |parts[1..]|;
    }
  }

  /** The characters `String.prototype.trim` removes: the ECMAScript WhiteSpace and LineTerminator set. */
  predicate IsSpace(c: char) {
    || c == '\t' || c == '\n' || c == '\U{000B}' || c == '\U{000C}' || c == '\r' || c == ' '
    || c == '\U{00A0}' || c == '\U{1680}' || ('\U{2000}' <= c <= '\U{200A}')
    || c == '\U{2028}' || c == '\U{2029}' || c == '\U{202F}' || c == '\U{205F}'
    || c == '\U{3000}' || c == '\U{FEFF}'
  }

  function TrimStart(s: string): (r: string)
    ensures |r| <= |s| && r == s[|s| - |r|..]
    ensures forall i :: 0 <= i < |s| - |r| ==> IsSpace(s[i])
    ensures r == [] || !IsSpace(r[0])
  {
    if s != [] && IsSpace(s[0]) then TrimStart(s[1..]) else s
  }

  function TrimEnd(s: string): (r: string)
    ensures |r| <= |s| && r == s[..|r|]
    ensures forall i :: |r| <= i < |s| ==> IsSpace(s[i])
    ensures r == [] || !IsSpace(r[|r| - 1])
  {
    if s != [] && IsSpace(s[|s| - 1]) then TrimEnd(s[..|s| - 1]) else s
  }

  /** `s.trim()`: the longest slice of `s` that neither starts nor ends with white space,
      with only white space cut away on either side. */
  function Trim(s: string): (r: string)
    ensures exists i, j :: 0 <= i <= j <= |s| && r == s[i..j]
                           && (forall k :: 0 <= k < i ==> IsSpace(s[k]))
                           && (forall k :: j <= k < |s| ==> IsSpace(s[k]))
    ensures r == [] || (!IsSpace(r[0]) && !IsSpace(r[|r| - 1]))
  {
    var t := TrimStart(s);
    var r := TrimEnd(t);
    var i := |s| - |t|;
    assert r == s[i..i + |r|];
    r
  }
}
